=== FILE: README.md ===
# javaserver service-discovery client, modelled in Dafny

This project models the client side of the brotherlogic `javaserver` library.
A service built on it registers itself with a discovery registry. It resolves
other services by name through that registry. It sends heartbeats and log
records to the service registered as `"monitor"`. The network is replaced by
an oracle: a map from registry address to the directory of entries that
registry holds. So every operation is a pure function of its inputs.

Modules, following the two source classes:

- `Wrappers` (`wrappers.dfy`): `Option`, standing for Java's nullable references.
- `JavaLang` (`java_lang.dfy`): the `java.lang` behaviour the code relies on.
  This covers `Integer.toString`, `Integer.parseInt`, `String.split(":")`,
  `endsWith`, `contains` and `replaceAll("^/+", "")`. Their edge cases are
  written out, for example trailing empty pieces dropped by `split`.
- `Registry` (`registry.dfy`): `RegistryEntry`, the `Endpoint` a channel is
  built for, and the `Lookup` oracle for the registry's `discover` RPC.
- `MacFormat` (`mac_format.dfy`): the `%02X`-and-dash formatting loop of
  `GetMacAddress`, with a parser that inverts it.
- `LanAddress` (`lan_address.dfy`): `GetAddressLocal`. It covers the
  enumeration loops that choose the LAN address (IPv4, no `"127.0"` in the
  text, site-local, last one wins), the single retry, and the
  `"ip"`/`"mac"` dispatch with its caught exceptions.
- `JavaServer` (`java_server.dfy`): `register`, `resolveServer`,
  `getHost(name)`, `getPort(name)`, both `Log` overloads, `sendHeartbeat`
  with its display toggle, and the heartbeat loop over a run of ticks.
- `DiscoveryCache` (`discovery_cache.dfy`): `NetworkObject`. It covers the
  bootstrap URL, the `host:port` reply parse, the `discover` loop (as a
  reference function and as the loop itself), and `resolveServer` with
  bootstrap-if-port-negative and invalidate-on-failure. A class
  `NetworkObject` with the two mutable fields wraps the same step.

Behaviour of the code that is easy to misread:

- The registry's "not found" is an error status in gRPC. The code catches every
  `StatusRuntimeException` alike. So a missing name gives null exactly like an
  unreachable registry. In `NetworkObject` it also drops the cached registry
  address.
- A channel is always built before the `try` that catches the lookup's
  error status. `ManagedChannelBuilder.forAddress` with a null host throws a
  `NullPointerException`, so a lookup through a null host throws out of the
  call instead of failing. The model treats every non-null host as building
  a channel.
- The cache is bootstrapped only when the port is negative. A new
  `NetworkObject` (null host, port 0) counts as cached, so it does not
  bootstrap. Its lookup then throws while the channel is built. The throw
  comes before the port could be reset, so the object stays (null, 0) and
  every later lookup throws too.
- A `JavaServer` before `Serve` also has a null discovery host. `Log`
  resolves "monitor" before its own `try`, so logging before `Serve` throws
  out of `Log`.
- `Log` and `sendHeartbeat` resolve "monitor" once for the guard and again
  for the channel. In `Log` the second lookup is inside the `try`, so a
  monitor that vanished in between only loses the record. In `sendHeartbeat`
  it is outside any `try`. A null host from the second lookup then throws
  out of the heartbeat thread's `run`, and no heartbeat is sent again.
- A refused registration is swallowed: the entry stays null. What escapes
  `register` is a `NullPointerException`: from the channel build for a null
  discovery host, or from the request builder for a null server name, IP
  text or MAC text. Both come after the discovery address is stored.
- In `discover`, the host is assigned from the reply before the port is
  parsed. So a reply with a bad port still replaces the host, and only the
  port keeps its old value.

## Model

| member | source | states |
|---|---|---|
| JavaLang.StripLeadingSlashes | src/main/java/com/github/brotherlogic/javaserver/JavaServer.java:105 | the result is a suffix of the text; everything removed before it is '/'; the result does not start with '/' — exactly the leading run of slashes is removed |
| JavaLang.ParseInt32 | src/main/java/com/github/brotherlogic/javaserver/NetworkObject.java:31 | a text is accepted exactly when it is an optional sign followed by one or more decimal digits whose value lies in the int range, and the result is that value; an overflowing value is rejected |
| JavaLang.ParseIntText | src/main/java/com/github/brotherlogic/javaserver/NetworkObject.java:31 | `Integer.parseInt` reads back every int that `Integer.toString` writes |
| JavaLang.Split | src/main/java/com/github/brotherlogic/javaserver/NetworkObject.java:29 | a text without ':' comes back whole; otherwise the result is the pieces between separators with only trailing empty pieces dropped, and its last piece is not empty; no piece contains the separator |
| JavaLang.JoinFields | src/main/java/com/github/brotherlogic/javaserver/NetworkObject.java:29 | the pieces the split cuts, joined with the separator again, give the line back |
| JavaLang.SplitLeading | src/main/java/com/github/brotherlogic/javaserver/NetworkObject.java:29-31 | `h:t` followed by further pieces splits with h first and t second whenever h and t are free of ':' and t is not empty |
| JavaLang.SplitPair | src/main/java/com/github/brotherlogic/javaserver/NetworkObject.java:29 | a line `h:p` with neither part holding ':' and p non-empty splits into exactly [h, p] |
| MacFormat.Hex2RoundTrip | src/main/java/com/github/brotherlogic/javaserver/JavaServer.java:48 | `%02X` of a signed byte (negative bytes print as b + 256) determines the byte |
| MacFormat.MacText | src/main/java/com/github/brotherlogic/javaserver/JavaServer.java:46-50 | n bytes give 3n - 1 characters (none for no bytes), so 6 bytes give the 17 the unit test expects |
| MacFormat.MacTextLayout | src/main/java/com/github/brotherlogic/javaserver/JavaServer.java:46-50 | byte k is the two hex digits at positions 3k and 3k+1; a '-' follows every byte but the last, and nothing follows the last |
| MacFormat.MacTextAlphabet | src/main/java/com/github/brotherlogic/javaserver/JavaServer.java:48 | every character is an upper-case hex digit or '-' |
| MacFormat.MacRoundTrip | src/main/java/com/github/brotherlogic/javaserver/JavaServer.java:46-50 | parsing the formatted text gives the bytes back, so the identifier determines the hardware address |
| MacFormat.FormatMac | src/main/java/com/github/brotherlogic/javaserver/JavaServer.java:46-50 | the StringBuilder loop, one byte per pass, builds exactly the reference text |
| LanAddress.LastQualifyingNone | src/main/java/com/github/brotherlogic/javaserver/JavaServer.java:74-90 | no LAN address is chosen exactly when no enumerated address passes the filter |
| LanAddress.LastQualifyingIsLast | src/main/java/com/github/brotherlogic/javaserver/JavaServer.java:74-88 | the chosen address passes the filter (IPv4, no "127.0" in its text, site-local) and no later address does: the last one wins |
| LanAddress.ScanInterface | src/main/java/com/github/brotherlogic/javaserver/JavaServer.java:77-87 | the inner loop over one interface's addresses extends the choice made so far as if those addresses followed the earlier ones |
| LanAddress.SelectLanAddress | src/main/java/com/github/brotherlogic/javaserver/JavaServer.java:74-88 | the nested enumeration loops choose the last qualifying address in interface-then-address order |
| LanAddress.GetAddressLocal | src/main/java/com/github/brotherlogic/javaserver/JavaServer.java:65-134 | an "ip" text never starts with '/'; any other type than "ip"/"mac" gives "" or null; null exactly when every permitted scan found no LAN address, or for "mac" when the MAC lookup raised a SocketException; a failed enumeration gives "", and so does "mac" when the LAN address has no interface or no hardware address |
| LanAddress.IpIsHostAddress | src/main/java/com/github/brotherlogic/javaserver/JavaServer.java:103-105 | with a LAN address found, the "ip" text is its dotted host address, unchanged apart from the stripped '/' of `toString()` |
| LanAddress.MacIsFormattedHardware | src/main/java/com/github/brotherlogic/javaserver/JavaServer.java:107-109 | with a LAN address found whose interface has a hardware address, the "mac" text is that address formatted |
| LanAddress.RetriesAtMostOnce | src/main/java/com/github/brotherlogic/javaserver/JavaServer.java:90-101 | without a LAN address, a call with retry=false gives null; with retry=true it is one call with retry=false on the next scan, which reads no further scan |
| LanAddress.UnknownTypeGivesEmpty | src/main/java/com/github/brotherlogic/javaserver/JavaServer.java:111-132 | an unknown address type gives "" once a LAN address is found, and null exactly when every permitted scan found none |
| LanAddress.SubstringTestRejectsSiteLocal | src/main/java/com/github/brotherlogic/javaserver/JavaServer.java:79-80 | the "127.0" test is textual: the site-local 10.127.0.1 is never chosen |
| Registry.Lookup | src/main/java/com/github/brotherlogic/javaserver/NetworkObject.java:55-62 | building the channel fails exactly for a null host; otherwise the call finds the entry exactly when the registry at that address is reachable and lists the name, and it is the listed entry; an unreachable address is told apart from a missing name |
| JavaServer.Register | src/main/java/com/github/brotherlogic/javaserver/JavaServer.java:261-281 | the discovery address is always stored; the request carries name, IP text and MAC text; an assigned entry replaces the registry field, a refusal keeps it; the call crashes exactly when the host, the server name, the IP text or the MAC text is null |
| JavaServer.ResolveServer | src/main/java/com/github/brotherlogic/javaserver/JavaServer.java:346-367 | the call throws exactly when the discovery host is null, since the channel is built before the `try`; otherwise an entry comes back exactly when the registry at the stored address lists the name, and it is that entry |
| JavaServer.GetHost | src/main/java/com/github/brotherlogic/javaserver/JavaServer.java:338-344 | throws exactly when the lookup does; otherwise the listed entry's ip, or null when the name does not resolve |
| JavaServer.GetPort | src/main/java/com/github/brotherlogic/javaserver/JavaServer.java:330-336 | throws exactly when the lookup does; otherwise the listed entry's port, or 0 when the name does not resolve |
| JavaServer.UnresolvedIsNullAndZero | src/main/java/com/github/brotherlogic/javaserver/JavaServer.java:330-344 | an unresolved name is reported as host null and port 0, never as an address |
| JavaServer.RegisterThenResolve | src/main/java/com/github/brotherlogic/javaserver/JavaServer.java:262-270 | after registering, resolving the assigned name against a registry that recorded it gives the assigned ip and port |
| JavaServer.Log | src/main/java/com/github/brotherlogic/javaserver/JavaServer.java:150-201 | the call throws exactly when the discovery host is null; otherwise it is skipped exactly when the guard's lookup does not give the monitor with a port > 0; it delivers exactly when, in addition, the second lookup lists the monitor, an entry is registered and a monitor answers at that address; what is delivered is this server's entry with the payload, sent there |
| JavaServer.LogBeforeRegistration | src/main/java/com/github/brotherlogic/javaserver/JavaServer.java:161-171 | after `register` with a refused registration, a log is skipped or its exception swallowed; it is never delivered and nothing escapes |
| JavaServer.LogBeforeServe | src/main/java/com/github/brotherlogic/javaserver/JavaServer.java:150-151 | before `Serve` the discovery host is null, and the guard's lookup throws out of `Log` |
| JavaServer.DisplayMode | src/main/java/com/github/brotherlogic/javaserver/JavaServer.java:305-309 | "on" exactly when 7 <= hour < 22, "off" otherwise |
| JavaServer.DisplayCommand | src/main/java/com/github/brotherlogic/javaserver/JavaServer.java:313 | the xset command ends in the display mode |
| JavaServer.SendHeartbeat | src/main/java/com/github/brotherlogic/javaserver/JavaServer.java:283-320 | the call throws exactly when the discovery host is null, or when the guard passes but the second lookup does not list the monitor; otherwise a heartbeat is attempted exactly when the monitor is listed with a port > 0 and an entry is registered; it is received exactly when a monitor answers at the address from the second lookup, and it carries the registered entry; unless the call throws, the display mode is set to "on" or "off" by the hour, whatever became of the heartbeat |
| JavaServer.SteadyRegistryKeepsThreadAlive | src/main/java/com/github/brotherlogic/javaserver/JavaServer.java:283-295 | when both lookups get the same registry answer, a started server's heartbeat never throws |
| JavaServer.HeartbeatLoop | src/main/java/com/github/brotherlogic/javaserver/JavaServer.java:207-222 | the passes run in order, each from its own moment; a lost heartbeat does not stop the next; the thread ends at the first pass that throws, and only then |
| DiscoveryCache.BootstrapUrl | src/main/java/com/github/brotherlogic/javaserver/NetworkObject.java:22-26 | the URL is "http://", the base without one trailing '/', then "/resolve" |
| DiscoveryCache.OneSlashBeforeResolve | src/main/java/com/github/brotherlogic/javaserver/NetworkObject.java:22-26 | a base with something before at most one trailing '/' gives exactly one '/' before "resolve" |
| DiscoveryCache.ApplyReply | src/main/java/com/github/brotherlogic/javaserver/NetworkObject.java:28-34 | a failed fetch or a missing line changes nothing; a line's first piece becomes the host; the second piece, when `parseInt` accepts it, becomes the port; the port changes in no other way |
| DiscoveryCache.ReplyParsesPort | src/main/java/com/github/brotherlogic/javaserver/NetworkObject.java:29-31 | a reply whose first piece is h and whose second piece is any text `parseInt` accepts ("007", "+7", ...) sets the cache to (h, its value), whatever further pieces follow |
| DiscoveryCache.ReplySetsCache | src/main/java/com/github/brotherlogic/javaserver/NetworkObject.java:29-31 | a reply "h:" + `Integer.toString(p)` with h free of ':' sets the cache to (h, p) |
| DiscoveryCache.NoColonKeepsPort | src/main/java/com/github/brotherlogic/javaserver/NetworkObject.java:29-34 | a line without ':' keeps the port, so a bootstrap in progress goes round again |
| DiscoveryCache.BadPortKeepsPort | src/main/java/com/github/brotherlogic/javaserver/NetworkObject.java:29-34 | a port piece that is not an int keeps the port, so a bootstrap in progress goes round again |
| DiscoveryCache.Discover | src/main/java/com/github/brotherlogic/javaserver/NetworkObject.java:19-41 | a usable cache makes no fetch; otherwise the cache is the fetches applied in order, and the run ends with a usable cache (non-empty host, port >= 0) unless the fetches ran out |
| DiscoveryCache.DiscoverStopsAtFirstUsable | src/main/java/com/github/brotherlogic/javaserver/NetworkObject.java:20 | no shorter run of fetches gave a usable cache: the loop leaves at the first chance |
| DiscoveryCache.DiscoverLoop | src/main/java/com/github/brotherlogic/javaserver/NetworkObject.java:20-40 | the while loop stops at the first usable cache or when the fetches run out, and ends where the reference run ends |
| DiscoveryCache.ResolveServer | src/main/java/com/github/brotherlogic/javaserver/NetworkObject.java:50-78 | the call blocks exactly when the port is negative and the bootstrap gives no usable cache, and then keeps the bootstrapped cache; it throws exactly when the port is non-negative and the host null, leaving the cache; a found entry leaves the cache it went through; a failed lookup returns null and sets the port to -1 |
| DiscoveryCache.CachedAddressUsedAsIs | src/main/java/com/github/brotherlogic/javaserver/NetworkObject.java:51-53 | with a non-negative port no bootstrap fetch matters, and the answer is the registry's at the cached address |
| DiscoveryCache.FailureForcesBootstrap | src/main/java/com/github/brotherlogic/javaserver/NetworkObject.java:63-69 | after a failed lookup the port is -1 and the next call bootstraps, making at least one fetch when any answer exists |
| DiscoveryCache.SuccessKeepsCache | src/main/java/com/github/brotherlogic/javaserver/NetworkObject.java:61-62 | a successful lookup through a cached address leaves host and port unchanged |
| DiscoveryCache.FreshObjectNeverResolves | src/main/java/com/github/brotherlogic/javaserver/NetworkObject.java:16-56 | a new object (null host, port 0) does not bootstrap; its lookup throws while the channel is built, and the cache stays (null, 0), so every later call throws the same way |
| DiscoveryCache.BootstrapThenFound | src/main/java/com/github/brotherlogic/javaserver/NetworkObject.java:50-62 | from a dropped cache, a first bootstrap answer "h:p" and a registry at (h, p) listing the name give that entry, with (h, p) cached |
| DiscoveryCache.NetworkObject.constructor | src/main/java/com/github/brotherlogic/javaserver/NetworkObject.java:14-17 | a new object has Java's field defaults: a null host and port 0 |
| DiscoveryCache.NetworkObject.Resolve | src/main/java/com/github/brotherlogic/javaserver/NetworkObject.java:50-78 | the method on the two fields blocks, throws or returns exactly as `ResolveServer` does from their old values, and leaves the fields holding the cache it ends with |

## Left out

- gRPC channels, stubs, `shutdown().awaitTermination(...)` and plaintext setup: each remote call is a lookup in the `Network` oracle, and an unreachable registry is an address missing from it.
- `Serve` beyond `register` and the heartbeat passes: `ServerBuilder` start-up, `localServe`, `stop` and `blockUntilShutdown` (JavaServer.java:225-251). They are listener plumbing.
- The heartbeat `Thread`, its 60-second sleep and the `running` flag; the 30-second sleep before the address retry; the 5-second sleep in `discover`. Timing is not modelled, only the order of passes.
- `Runtime.exec` of the xset command and the reading of its output: only the command text is modelled.
- The `Log(float)` payload is a `real`, forwarded unchanged; float rounding is not modelled.
- `NetworkInterface.getNetworkInterfaces`, `getByInetAddress` and `getHardwareAddress` are inputs: an enumeration snapshot and a table from address to hardware answer. An IPv6 address is given by its text and its site-local flag.
- `GetAddress`, `getIPAddress` and `getMACAddress` (JavaServer.java:61-63, 136-142) only call `GetAddressLocal(type, true)`. `Register` takes their results as inputs.
- The no-argument `getHost()` and `getPort()` (JavaServer.java:322-328) read the registered entry and throw before registration. They are not modelled.
- `Dial` (NetworkObject.java:43-48) only wraps the resolved entry into a channel.
- Reading the bootstrap URL is an oracle: successive fetches of each URL answer with a failure, an empty stream, or one line. `MalformedURLException` counts as a failure.
- JavaLang.ParseInt32: accepts ASCII digits only. `Integer.parseInt` also accepts other Unicode decimal digits.
- JavaServer.Log: the source resolves "monitor" four times per call, host and port separately for the guard and again for the channel. The model gives the guard one registry answer and the channel a second, so the host and the port of each pair agree.
- JavaServer.SendHeartbeat: the same two registry answers per call as `Log`.
- DiscoveryCache.Discover: a finite run of fetches; running out before the cache is usable is the `Blocked` outcome, where the Java loop keeps waiting.
- Registry.Lookup: only a null host makes the channel build throw. A port outside what a URI allows might also make the builder throw; every non-null address is taken to build a channel, and a bad one fails only when the call is made.
- JavaServer.ResolveServer: the service name is taken to be non-null. For `getHost(null)` and `getPort(null)` the source throws at `setName(null)` (JavaServer.java:352), before the `try`.
- JavaServer.Log: the message is taken to be non-null. For `Log(null)` the source throws at `setMessage(null)` inside the `try`, so the record is swallowed rather than delivered.
- DiscoveryCache.ResolveServer: the base and the service name are taken to be non-null. For a null name the source throws at `setName(null)` (NetworkObject.java:60) after the channel is built and before the `try`, keeping the cache. For a null base with a negative port, `server.endsWith` throws inside discover's `try`, so the loop never ends.
- Concurrent callers racing on the cache fields are not modelled; every call runs alone.

=== FILE: discovery_cache.dfy ===
/**
 * NetworkObject: a client that finds the discovery registry through an HTTP
 * bootstrap lookup, caches its (host, port), and looks services up through
 * that cache, dropping it (port -1) whenever a lookup fails.
 */
module DiscoveryCache {
  import opened Wrappers
  import opened JavaLang
  import opened Registry

  /** The fields discoveryHost and discoveryPort. */
  datatype Cache = Cache(host: Option<string>, port: int32)

  /** A new NetworkObject: Java's defaults, a null host and port 0. */
  const FRESH: Cache := Cache(None, 0)

  /** The exit condition of discover's loop: a non-empty host and a non-negative port. */
  predicate Usable(c: Cache) {
    c.host.Some? && |c.host.value| > 0 && c.port >= 0
  }

  /** The server text without its one trailing '/', if it has one. */
  function WithoutTrailingSlash(server: string): string {
    if EndsWith(server, "/") then server[..|server| - 1] else server
  }

  /** The address of the bootstrap lookup for a base address. */
  function BootstrapUrl(server: string): (url: string)
    ensures url == "http://" + WithoutTrailingSlash(server) + "/resolve"
  {
    var add := if !EndsWith(server, "/") then "/resolve" else "resolve";
    assert EndsWith(server, "/") ==> server == server[..|server| - 1] + "/";
    "http://" + server + add
  }

  /**
   * A base with at most one trailing '/' (and something before it) gives a
   * URL with exactly one '/' in front of "resolve".
   */
  lemma OneSlashBeforeResolve(server: string)
    requires WithoutTrailingSlash(server) != "" && !EndsWith(server, "//")
    ensures var url := BootstrapUrl(server);
      EndsWith(url, "/resolve") && url[|url| - 9] != '/'
  {
    var w := WithoutTrailingSlash(server);
    var url := BootstrapUrl(server);
    assert url[|url| - 8..] == "/resolve";
    assert url[|url| - 9] == w[|w| - 1];
    if EndsWith(server, "/") {
      assert server[|server| - 2..] != "//";
      assert w[|w| - 1] == server[|server| - 2];
    } else {
      assert w[|w| - 1] == server[|server| - 1];
      assert server[|server| - 1..] == [server[|server| - 1]];
    }
  }

  /** What one fetch of the bootstrap URL gives: an exception, end of stream, or a line. */
  datatype Fetch = FetchFailed | NoLine | Line(text: string)

  /** The answers the bootstrap server at each URL gives to successive fetches. */
  type Web = map<string, seq<Fetch>>

  function FetchesFor(web: Web, server: string): seq<Fetch> {
    var url := BootstrapUrl(server);
    if url in web then web[url] else []
  }

  /**
   * One pass of discover's loop body. The host is taken from the first
   * piece of the line before the port is parsed, so a bad port still moves
   * the host; a failed fetch, a missing line, or a line that splits into no
   * pieces changes nothing.
   */
  function ApplyReply(c: Cache, f: Fetch): (r: Cache)
    ensures r.port != c.port ==>
      f.Line? && |Split(f.text, ':')| >= 2 && ParseInt32(Split(f.text, ':')[1]) == Some(r.port)
    ensures r.host != c.host ==> f.Line? && 1 <= |Split(f.text, ':')| && r.host == Some(Split(f.text, ':')[0])
    ensures !f.Line? ==> r == c
    ensures f.Line? && 1 <= |Split(f.text, ':')| ==> r.host == Some(Split(f.text, ':')[0])
    ensures f.Line? && 2 <= |Split(f.text, ':')| && ParseInt32(Split(f.text, ':')[1]).Some? ==>
      r.port == ParseInt32(Split(f.text, ':')[1]).value
  {
    match f
    case Line(text) =>
      var elems := Split(text, ':');
      if |elems| == 0 then c
      else if |elems| < 2 then Cache(Some(elems[0]), c.port)
      else (match ParseInt32(elems[1])
        case Some(p) => Cache(Some(elems[0]), p)
        case None => Cache(Some(elems[0]), c.port))
    case _ => c
  }

  lemma DigitsHaveNoColon(s: string)
    requires AllDigits(s)
    ensures ':' !in s
  {
  }

  /**
   * A reply whose first piece is h and whose second piece t is anything
   * `Integer.parseInt` accepts ("007", "+7", "-1", ...) sets the cache to
   * (h, t's value); pieces after the second are ignored.
   */
  lemma ReplyParsesPort(c: Cache, h: string, t: string, rest: string, p: int32)
    requires ':' !in h && ':' !in t && t != "" && ParseInt32(t) == Some(p)
    requires rest == "" || rest[0] == ':'
    ensures ApplyReply(c, Line(h + ":" + t + rest)) == Cache(Some(h), p)
  {
    SplitLeading(h, t, rest, ':');
  }

  /** The canonical reply "h:" + Integer.toString(p) with a colon-free h sets the cache to (h, p). */
  lemma ReplySetsCache(c: Cache, h: string, p: int32)
    requires ':' !in h
    ensures ApplyReply(c, Line(h + ":" + IntText(p))) == Cache(Some(h), p)
  {
    var t := IntText(p);
    if p < 0 {
      var n: nat := -(p as int);
      DigitsHaveNoColon(Decimal(n));
      assert t == "-" + Decimal(n);
      assert ':' !in t;
    } else {
      DigitsHaveNoColon(Decimal(p));
    }
    ParseIntText(p);
    assert h + ":" + t + "" == h + ":" + t;
    ReplyParsesPort(c, h, t, "", p);
  }

  /** A line without ':' leaves the port alone, so a bootstrap in progress goes round again. */
  lemma NoColonKeepsPort(c: Cache, text: string)
    requires ':' !in text
    ensures ApplyReply(c, Line(text)) == Cache(Some(text), c.port)
    ensures c.port < 0 ==> !Usable(ApplyReply(c, Line(text)))
  {
  }

  /** A port that is not an int leaves the port alone, so a bootstrap in progress goes round again. */
  lemma BadPortKeepsPort(c: Cache, text: string)
    requires |Split(text, ':')| >= 2 && ParseInt32(Split(text, ':')[1]).None?
    ensures ApplyReply(c, Line(text)).port == c.port
    ensures c.port < 0 ==> !Usable(ApplyReply(c, Line(text)))
  {
  }

  /** The cache after applying a run of fetches in order. */
  function Replay(c: Cache, fetches: seq<Fetch>): Cache
    decreases |fetches|
  {
    if |fetches| == 0 then c else Replay(ApplyReply(c, fetches[0]), fetches[1..])
  }

  lemma {:induction false} ReplaySnoc(c: Cache, fetches: seq<Fetch>, f: Fetch)
    ensures Replay(c, fetches + [f]) == ApplyReply(Replay(c, fetches), f)
    decreases |fetches|
  {
    if |fetches| > 0 {
      assert (fetches + [f])[1..] == fetches[1..] + [f];
      ReplaySnoc(ApplyReply(c, fetches[0]), fetches[1..], f);
    }
  }

  /** The outcome of discover: the cache it leaves and how many fetches it made. */
  datatype Run = Run(cache: Cache, attempts: nat)

  /**
   * discover over a finite run of fetches: fetch until the cache is usable.
   * If the fetches run out first, the Java loop would go on for ever.
   */
  function Discover(c: Cache, fetches: seq<Fetch>): (r: Run)
    ensures r.attempts <= |fetches| && r.cache == Replay(c, fetches[..r.attempts])
    ensures Usable(c) ==> r == Run(c, 0)
    ensures Usable(r.cache) || r.attempts == |fetches|
    decreases |fetches|
  {
    if Usable(c) || |fetches| == 0 then Run(c, 0)
    else
      var rest := Discover(ApplyReply(c, fetches[0]), fetches[1..]);
      assert fetches[..rest.attempts + 1][1..] == fetches[1..][..rest.attempts];
      Run(rest.cache, rest.attempts + 1)
  }

  /** discover stops at the first usable cache: no shorter run of fetches gave one. */
  lemma {:induction false} DiscoverStopsAtFirstUsable(c: Cache, fetches: seq<Fetch>)
    ensures forall k :: 0 <= k < Discover(c, fetches).attempts ==> !Usable(Replay(c, fetches[..k]))
    decreases |fetches|
  {
    if !Usable(c) && |fetches| > 0 {
      var c1 := ApplyReply(c, fetches[0]);
      DiscoverStopsAtFirstUsable(c1, fetches[1..]);
      forall k | 0 <= k < Discover(c, fetches).attempts
        ensures !Usable(Replay(c, fetches[..k]))
      {
        if k > 0 {
          assert fetches[..k][1..] == fetches[1..][..k - 1];
        }
      }
    }
  }

  /** discover's while loop, one fetch per pass. */
  method DiscoverLoop(c: Cache, fetches: seq<Fetch>) returns (cache: Cache, attempts: nat)
    ensures attempts <= |fetches|
    ensures Usable(cache) || attempts == |fetches|
    ensures cache == Replay(c, fetches[..attempts])
    ensures forall k :: 0 <= k < attempts ==> !Usable(Replay(c, fetches[..k]))
    ensures Run(cache, attempts) == Discover(c, fetches)
  {
    cache := c;
    attempts := 0;
    while !Usable(cache) && attempts < |fetches|
      invariant attempts <= |fetches|
      invariant cache == Replay(c, fetches[..attempts])
      invariant forall k :: 0 <= k < attempts ==> !Usable(Replay(c, fetches[..k]))
    {
      ReplaySnoc(c, fetches[..attempts], fetches[attempts]);
      assert fetches[..attempts + 1] == fetches[..attempts] + [fetches[attempts]];
      cache := ApplyReply(cache, fetches[attempts]);
      attempts := attempts + 1;
    }
    DiscoverStopsAtFirstUsable(c, fetches);
  }

  /**
   * `Blocked`: the bootstrap never produced a usable cache (the Java call
   * does not return). `Resolved`: the call returned `entry`, null as `None`.
   * `Threw`: building the channel for a null host threw out of the call,
   * before the `try` that would have dropped the cache.
   */
  datatype Outcome =
    | Blocked(cache: Cache)
    | Resolved(cache: Cache, entry: Option<RegistryEntry>)
    | Threw(cache: Cache)

  /** The cache the lookup goes through: bootstrapped only when the port is negative. */
  function Ready(c: Cache, base: string, web: Web): Cache {
    if c.port < 0 then Discover(c, FetchesFor(web, base)).cache else c
  }

  /** resolveServer(base, name). */
  function ResolveServer(c: Cache, base: string, name: string, web: Web, net: Network): (r: Outcome)
    ensures r.Blocked? <==> c.port < 0 && !Usable(Ready(c, base, web))
    ensures r.Threw? <==> c.port >= 0 && c.host.None?
    ensures r.Blocked? || r.Threw? ==> r.cache == Ready(c, base, web)
    ensures r.Resolved? && r.entry.Some? ==>
      r.cache == Ready(c, base, web) && Lookup(net, Endpoint(r.cache.host, r.cache.port), name) == Found(r.entry.value)
    ensures r.Resolved? && r.entry.None? ==>
      r.cache == Ready(c, base, web).(port := -1)
      && !Lookup(net, Endpoint(Ready(c, base, web).host, Ready(c, base, web).port), name).Found?
  {
    var ready := Ready(c, base, web);
    if c.port < 0 && !Usable(ready) then Blocked(ready)
    else match Lookup(net, Endpoint(ready.host, ready.port), name)
      case NoChannel => Threw(ready)
      case Found(entry) => Resolved(ready, Some(entry))
      case _ => Resolved(ready.(port := -1), None)
  }

  /**
   * A cache with a non-negative port is used as it is: no bootstrap fetch is
   * made, and the answer is the registry's at the cached address.
   */
  lemma CachedAddressUsedAsIs(c: Cache, base: string, name: string, web: Web, web': Web, net: Network)
    requires c.port >= 0
    ensures ResolveServer(c, base, name, web, net) == ResolveServer(c, base, name, web', net)
    ensures ResolveServer(c, base, name, web, net).Resolved? && ResolveServer(c, base, name, web, net).entry.Some?
        <==> c.host.Some? && Endpoint(c.host, c.port) in net && name in net[Endpoint(c.host, c.port)]
  {
  }

  /**
   * A failed lookup returns null and drops the cache; the next call then
   * bootstraps, making at least one fetch when the server has any answer.
   */
  lemma FailureForcesBootstrap(c: Cache, base: string, name: string, web: Web, net: Network)
    requires ResolveServer(c, base, name, web, net).Resolved? && ResolveServer(c, base, name, web, net).entry.None?
    ensures var c' := ResolveServer(c, base, name, web, net).cache;
      && c'.port == -1
      && Ready(c', base, web) == Discover(c', FetchesFor(web, base)).cache
      && (|FetchesFor(web, base)| > 0 ==> Discover(c', FetchesFor(web, base)).attempts >= 1)
  {
  }

  /** A successful lookup keeps the cache it went through. */
  lemma SuccessKeepsCache(c: Cache, base: string, name: string, web: Web, net: Network)
    requires c.port >= 0
    requires ResolveServer(c, base, name, web, net).Resolved?
    requires ResolveServer(c, base, name, web, net).entry.Some?
    ensures ResolveServer(c, base, name, web, net).cache == c
  {
  }

  /**
   * A new object's port 0 passes as a valid cache, so it does not bootstrap;
   * building the channel for its null host throws before the `try`, so the
   * cache is never dropped either, and every later call throws the same way.
   */
  lemma FreshObjectNeverResolves(base: string, name: string, web: Web, net: Network)
    ensures ResolveServer(FRESH, base, name, web, net) == Threw(FRESH)
  {
  }

  /**
   * From a dropped cache, a first bootstrap answer "h:p" and a registry at
   * (h, p) listing the name give that entry, and (h, p) stays cached.
   */
  lemma BootstrapThenFound(c: Cache, base: string, name: string, web: Web, net: Network, h: string, p: int32)
    requires c.port < 0
    requires h != "" && ':' !in h && p >= 0
    requires |FetchesFor(web, base)| > 0 && FetchesFor(web, base)[0] == Line(h + ":" + IntText(p))
    requires Endpoint(Some(h), p) in net && name in net[Endpoint(Some(h), p)]
    ensures ResolveServer(c, base, name, web, net) == Resolved(Cache(Some(h), p), Some(net[Endpoint(Some(h), p)][name]))
  {
    var fs := FetchesFor(web, base);
    ReplySetsCache(c, h, p);
    assert fs[..1] == [fs[0]];
    assert Replay(c, fs[..1]) == Cache(Some(h), p);
    assert Usable(Replay(c, fs[..1]));
  }

  /** The object itself, with its two mutable cache fields. */
  class NetworkObject {
    var discoveryHost: Option<string>
    var discoveryPort: int32

    constructor()
      ensures discoveryHost == None && discoveryPort == 0
    {
      discoveryHost := None;
      discoveryPort := 0;
    }

    /**
     * resolveServer(base, name) on the fields. `hung` reports that the bootstrap ran out of
     * answers without a usable address, where the Java loop keeps waiting; `threw` that
     * building the channel for a null host threw out of the call.
     */
    method Resolve(base: string, name: string, web: Web, net: Network)
      returns (entry: Option<RegistryEntry>, hung: bool, threw: bool)
      modifies this
      ensures var r := ResolveServer(Cache(old(discoveryHost), old(discoveryPort)), base, name, web, net);
        && hung == r.Blocked?
        && threw == r.Threw?
        && Cache(discoveryHost, discoveryPort) == r.cache
        && (r.Resolved? ==> entry == r.entry)
    {
      entry := None;
      hung := false;
      threw := false;
      if discoveryPort < 0 {
        var cache, _ := DiscoverLoop(Cache(discoveryHost, discoveryPort), FetchesFor(web, base));
        discoveryHost, discoveryPort := cache.host, cache.port;
        if !Usable(cache) {
          hung := true;
          return;
        }
      }
      var reply := Lookup(net, Endpoint(discoveryHost, discoveryPort), name);
      if reply.NoChannel? {
        threw := true;
      } else if reply.Found? {
        entry := Some(reply.entry);
      } else {
        discoveryPort := -1;
      }
    }
  }
}

=== FILE: java_lang.dfy ===
/**
 * The parts of java.lang.String and java.lang.Integer the client relies on,
 * written out so that their edge cases are visible: `Integer.toString`,
 * `Integer.parseInt`, `String.split` with a one-character separator,
 * `endsWith`, `contains` and `replaceAll("^/+", "")`.
 */
module JavaLang {
  import opened Wrappers

  /** Java `int`. */
  type int32 = x: int | -0x8000_0000 <= x < 0x8000_0000

  /** Java `byte` (signed, two's complement). */
  type int8 = x: int | -0x80 <= x < 0x80

  // ---------------------------------------------------------------- digits

  predicate IsDigit(c: char) {
    '0' <= c <= '9'
  }

  predicate AllDigits(s: string) {
    forall i :: 0 <= i < |s| ==> IsDigit(s[i])
  }

  function DigitValue(c: char): nat
    requires IsDigit(c)
  {
    (c as int) - ('0' as int)
  }

  function DigitChar(d: nat): (c: char)
    requires d < 10
    ensures IsDigit(c) && DigitValue(c) == d
  {
    (('0' as int) + d) as char
  }

  /** The number a string of decimal digits denotes (leading zeros allowed). */
  function DigitsValue(s: string): nat
    requires AllDigits(s)
  {
    if |s| == 0 then 0 else DigitsValue(s[..|s| - 1]) * 10 + DigitValue(s[|s| - 1])
  }

  /** `Integer.toString(n)` for n >= 0: the shortest decimal spelling. */
  function Decimal(n: nat): (s: string)
    ensures 1 <= |s| && AllDigits(s)
    ensures |s| > 1 ==> s[0] != '0'
  {
    if n < 10 then [DigitChar(n)] else Decimal(n / 10) + [DigitChar(n % 10)]
  }

  /** `Integer.toString(x)`: a minus sign, then the decimal spelling of |x|. */
  function IntText(x: int): string {
    if x < 0 then "-" + Decimal(-x) else Decimal(x)
  }

  /** Reading back what `Decimal` wrote gives the number again. */
  lemma {:induction false} DecimalValue(n: nat)
    ensures DigitsValue(Decimal(n)) == n
  {
    if n >= 10 {
      var s := Decimal(n);
      assert s[..|s| - 1] == Decimal(n / 10);
      DecimalValue(n / 10);
    }
  }

  /** The text after an optional leading '+' or '-'. */
  function DigitPart(s: string): string {
    if |s| > 0 && (s[0] == '-' || s[0] == '+') then s[1..] else s
  }

  /** What `Integer.parseInt` reads: an optional sign, then one or more decimal digits and nothing else. */
  predicate IntShape(s: string) {
    |DigitPart(s)| > 0 && AllDigits(DigitPart(s))
  }

  /** The number a text of that shape denotes, before any range check. */
  function SignedValue(s: string): int
    requires IntShape(s)
  {
    var magnitude: int := DigitsValue(DigitPart(s));
    if s[0] == '-' then -magnitude else magnitude
  }

  /**
   * `Integer.parseInt(s)`: accepted exactly when the text has the shape and
   * its value lies in the `int` range; anything else, an overflowing value
   * included, is a NumberFormatException, here `None`.
   */
  function ParseInt32(s: string): (r: Option<int32>)
    ensures r.Some? <==> IntShape(s) && -0x8000_0000 <= SignedValue(s) < 0x8000_0000
    ensures r.Some? ==> r.value == SignedValue(s)
  {
    if |s| == 0 then None
    else
      var digits := if s[0] == '-' || s[0] == '+' then s[1..] else s;
      if |digits| == 0 || !AllDigits(digits) then None
      else
        var v: int := if s[0] == '-' then -(DigitsValue(digits) as int) else DigitsValue(digits);
        if -0x8000_0000 <= v < 0x8000_0000 then Some(v) else None
  }

  /** `Integer.parseInt(Integer.toString(x)) == x` for every Java int. */
  lemma ParseIntText(x: int32)
    ensures ParseInt32(IntText(x)) == Some(x)
  {
    var s := IntText(x);
    var n: nat := if x < 0 then -(x as int) else x;
    DecimalValue(n);
    if x < 0 {
      assert s == "-" + Decimal(n);
      assert DigitPart(s) == Decimal(n);
    } else {
      assert s == Decimal(n);
      assert IsDigit(s[0]);
      assert DigitPart(s) == Decimal(n);
    }
    assert IntShape(s) && SignedValue(s) == x;
  }

  // ------------------------------------------------------- String methods

  /** `s.endsWith(suffix)` */
  predicate EndsWith(s: string, suffix: string) {
    |suffix| <= |s| && s[|s| - |suffix|..] == suffix
  }

  /** `s.startsWith(prefix)` */
  predicate StartsWith(s: string, prefix: string) {
    |prefix| <= |s| && s[..|prefix|] == prefix
  }

  /** `s.contains(t)`: t occurs somewhere in s. */
  predicate Contains(s: string, t: string)
    decreases |s|
  {
    StartsWith(s, t) || (|s| > 0 && Contains(s[1..], t))
  }

  /** An occurrence at a given position is found by `Contains`. */
  lemma {:induction false} ContainsAt(s: string, t: string, i: nat)
    requires i + |t| <= |s| && s[i..i + |t|] == t
    ensures Contains(s, t)
    decreases i
  {
    if i == 0 {
      assert s[..|t|] == t;
    } else {
      assert s[1..][i - 1..i - 1 + |t|] == s[i..i + |t|];
      ContainsAt(s[1..], t, i - 1);
    }
  }

  /**
   * `s.replaceAll("^/+", "")`: the anchored pattern removes the whole run of
   * leading slashes and nothing else.
   */
  function StripLeadingSlashes(s: string): (r: string)
    ensures |r| <= |s| && s[|s| - |r|..] == r
    ensures forall i :: 0 <= i < |s| - |r| ==> s[i] == '/'
    ensures |r| == 0 || r[0] != '/'
  {
    if |s| > 0 && s[0] == '/' then StripLeadingSlashes(s[1..]) else s
  }

  // ---------------------------------------------------------- String.split

  /** The pieces of s between occurrences of sep, empty pieces included. */
  function Fields(s: string, sep: char): (r: seq<string>)
    ensures 1 <= |r|
    ensures forall k :: 0 <= k < |r| ==> sep !in r[k]
  {
    if |s| == 0 then [""]
    else
      var rest := Fields(s[1..], sep);
      if s[0] == sep then [""] + rest else [[s[0]] + rest[0]] + rest[1..]
  }

  /** The pieces joined with sep in between. */
  function Join(pieces: seq<string>, sep: char): string
    requires 1 <= |pieces|
  {
    if |pieces| == 1 then pieces[0] else pieces[0] + [sep] + Join(pieces[1..], sep)
  }

  /** Splitting and joining again gives back the text. */
  lemma {:induction false} JoinFields(s: string, sep: char)
    ensures Join(Fields(s, sep), sep) == s
  {
    if |s| > 0 {
      var rest := Fields(s[1..], sep);
      JoinFields(s[1..], sep);
      if s[0] != sep {
        var r := [[s[0]] + rest[0]] + rest[1..];
        if |rest| == 1 {
          assert Join(r, sep) == [s[0]] + rest[0];
        } else {
          assert r[1..] == rest[1..];
          assert Join(rest, sep) == rest[0] + [sep] + Join(rest[1..], sep);
        }
      } else {
        assert ([""] + rest)[1..] == rest;
      }
    }
  }

  function DropTrailingEmpty(pieces: seq<string>): (r: seq<string>)
    ensures |r| <= |pieces| && r == pieces[..|r|]
    ensures forall k :: |r| <= k < |pieces| ==> pieces[k] == ""
    ensures |r| == 0 || r[|r| - 1] != ""
  {
    if |pieces| == 0 || pieces[|pieces| - 1] != "" then pieces
    else DropTrailingEmpty(pieces[..|pieces| - 1])
  }

  /**
   * `s.split(String.valueOf(sep))` for a separator that is not a regex
   * metacharacter: a text without sep is returned whole (even when empty);
   * otherwise the pieces, with trailing empty pieces removed.
   */
  function Split(s: string, sep: char): (r: seq<string>)
    ensures sep !in s ==> r == [s]
    ensures sep in s ==> |r| <= |Fields(s, sep)| && r == Fields(s, sep)[..|r|]
    ensures sep in s ==> forall k :: |r| <= k < |Fields(s, sep)| ==> Fields(s, sep)[k] == ""
    ensures sep in s ==> |r| == 0 || r[|r| - 1] != ""
    ensures forall k :: 0 <= k < |r| ==> sep !in r[k]
  {
    if sep !in s then [s] else DropTrailingEmpty(Fields(s, sep))
  }

  /** A piece free of sep runs up to the first separator. */
  lemma {:induction false} FieldsOfPrefix(h: string, t: string, sep: char)
    requires sep !in h
    ensures Fields(h + t, sep) == [h + Fields(t, sep)[0]] + Fields(t, sep)[1..]
  {
    if |h| > 0 {
      assert (h + t)[1..] == h[1..] + t;
      FieldsOfPrefix(h[1..], t, sep);
      assert [h[0]] + (h[1..] + Fields(t, sep)[0]) == h + Fields(t, sep)[0];
    } else {
      var f := Fields(t, sep);
      assert h + t == t;
      assert h + f[0] == f[0];
      assert [f[0]] + f[1..] == f;
    }
  }

  /** `(h + ":" + p).split(":")` is `[h, p]` when neither part holds the separator and p is not empty. */
  lemma SplitPair(h: string, p: string, sep: char)
    requires sep !in h && sep !in p && p != ""
    ensures Split(h + [sep] + p, sep) == [h, p]
  {
    var s := h + [sep] + p;
    assert s == h + ([sep] + p);
    FieldsOfPrefix(h, [sep] + p, sep);
    assert ([sep] + p)[1..] == p;
    FieldsOfPrefix(p, "", sep);
    assert p + "" == p;
    assert Fields(p, sep) == [p];
    assert Fields([sep] + p, sep) == ["", p];
    assert Fields(s, sep) == [h + "", p];
    assert h + "" == h;
    assert s[|h|] == sep;
  }

  /**
   * `(h + ":" + t + rest).split(":")` starts with h and t when neither holds
   * the separator, t is not empty and rest is empty or starts a new piece:
   * whatever follows in later pieces is left for them.
   */
  lemma SplitLeading(h: string, t: string, rest: string, sep: char)
    requires sep !in h && sep !in t && t != ""
    requires rest == "" || rest[0] == sep
    ensures var r := Split(h + [sep] + t + rest, sep);
      |r| >= 2 && r[0] == h && r[1] == t
  {
    var s := h + [sep] + t + rest;
    var tail := [sep] + (t + rest);
    assert s == h + tail;
    assert s[|h|] == sep;
    FieldsOfPrefix(h, tail, sep);
    assert tail[1..] == t + rest;
    assert Fields(tail, sep) == [""] + Fields(t + rest, sep);
    FieldsOfPrefix(t, rest, sep);
    if rest != "" {
      assert Fields(rest, sep) == [""] + Fields(rest[1..], sep);
    }
    assert Fields(rest, sep)[0] == "";
    assert t + "" == t && h + "" == h;
    var f := Fields(s, sep);
    assert f[0] == h && f[1] == t;
  }
}

=== FILE: java_server.dfy ===
/**
 * The instance side of JavaServer: registration with the discovery
 * registry, name resolution through it, and the guards that decide whether
 * a log record or a heartbeat goes to the "monitor" service. Every remote
 * call is answered by the network oracle of module Registry.
 */
module JavaServer {
  import opened Wrappers
  import opened JavaLang
  import opened Registry

  /** The service that receives logs and heartbeats. */
  const MONITOR: string := "monitor"

  /** The instance fields: the entry the registry assigned and the discovery address. */
  datatype Server = Server(registry: Option<RegistryEntry>, discovery: Endpoint)

  /** A JavaServer before `Serve`: null entry, null host, port 0. */
  const UNSTARTED: Server := Server(None, Endpoint(None, 0))

  /** The registry's answer to `registerService`; `Refused` is a StatusRuntimeException. */
  datatype RegisterReply = Assigned(entry: RegistryEntry) | Refused

  /**
   * `Requested`: the request went out (whatever the answer was).
   * `Crashed`: building the request threw a NullPointerException, which
   * nothing in `register` catches.
   */
  datatype Registration =
    | Requested(server: Server, request: RegistryEntry)
    | Crashed(server: Server)

  /**
   * register(host, port): remember the discovery address, build the channel
   * for it, then send this server's name, IP text and MAC text (`name`,
   * `ip` and `mac` are what getServerName, getIPAddress and getMACAddress
   * returned; `None` is null). A null host makes the channel build throw; a
   * null name, IP or MAC text makes the request builder throw. Neither is
   * caught, and both come after the two fields are stored.
   */
  function Register(s: Server, host: Option<string>, port: int32, name: Option<string>,
                    ip: Option<string>, mac: Option<string>, reply: RegisterReply): (r: Registration)
    ensures r.server.discovery == Endpoint(host, port)
    ensures r.Crashed? <==> host.None? || name.None? || ip.None? || mac.None?
    ensures r.Requested? ==> r.request == RegistryEntry(name.value, ip.value, 0, mac.value)
    ensures r.Requested? && reply.Assigned? ==> r.server.registry == Some(reply.entry)
    ensures r.Crashed? || reply.Refused? ==> r.server.registry == s.registry
  {
    var s' := s.(discovery := Endpoint(host, port));
    if host.None? then Crashed(s')                                 // forAddress(null, port) throws
    else if name.None? || ip.None? || mac.None? then Crashed(s')   // setName/setIp/setIdentifier(null) throws
    else
      var request := RegistryEntry(name.value, ip.value, 0, mac.value);
      match reply
      case Assigned(entry) => Requested(s'.(registry := Some(entry)), request)
      case Refused => Requested(s', request)
  }

  /** Whether the discovery registry this server talks to lists `name`. */
  predicate Listed(s: Server, net: Network, name: string) {
    s.discovery.host.Some? && s.discovery in net && name in net[s.discovery]
  }

  /** A call that returns a value, or throws an exception its caller does not catch. */
  datatype Call<+T> = Returns(value: T) | Throws

  /**
   * resolveServer(name): the registry's entry, or null on any error status.
   * The channel is built before the `try`, so a null discovery host (a
   * server before `Serve`) throws out of the call.
   */
  function ResolveServer(s: Server, net: Network, name: string): (r: Call<Option<RegistryEntry>>)
    ensures r.Throws? <==> s.discovery.host.None?
    ensures r.Returns? ==> (r.value.Some? <==> Listed(s, net, name))
    ensures r.Returns? && r.value.Some? ==> r.value.value == net[s.discovery][name]
  {
    match Lookup(net, s.discovery, name)
    case NoChannel => Throws
    case Found(entry) => Returns(Some(entry))
    case _ => Returns(None)
  }

  /** getHost(name): the entry's ip, or null when nothing was resolved. */
  function GetHost(s: Server, net: Network, name: string): (r: Call<Option<string>>)
    ensures r.Throws? <==> s.discovery.host.None?
    ensures Listed(s, net, name) ==> r == Returns(Some(net[s.discovery][name].ip))
    ensures s.discovery.host.Some? && !Listed(s, net, name) ==> r == Returns(None)
  {
    match ResolveServer(s, net, name)
    case Throws => Throws
    case Returns(entry) => Returns(if entry.Some? then Some(entry.value.ip) else None)
  }

  /** getPort(name): the entry's port, or 0 when nothing was resolved. */
  function GetPort(s: Server, net: Network, name: string): (r: Call<int32>)
    ensures r.Throws? <==> s.discovery.host.None?
    ensures Listed(s, net, name) ==> r == Returns(net[s.discovery][name].port)
    ensures s.discovery.host.Some? && !Listed(s, net, name) ==> r == Returns(0)
  {
    match ResolveServer(s, net, name)
    case Throws => Throws
    case Returns(entry) => Returns(if entry.Some? then entry.value.port else 0)
  }

  /** An unresolved name never yields a usable address: no host, port 0. */
  lemma UnresolvedIsNullAndZero(s: Server, net: Network, name: string)
    requires ResolveServer(s, net, name) == Returns(None)
    ensures GetHost(s, net, name) == Returns(None) && GetPort(s, net, name) == Returns(0)
  {
  }

  /**
   * Registering and then resolving the own name against the same registry
   * gives back the assigned entry's address, provided the registry records
   * what it assigned.
   */
  lemma RegisterThenResolve(s: Server, host: string, port: int32, name: string,
                            ip: string, mac: string, e: RegistryEntry, net: Network)
    requires Endpoint(Some(host), port) in net
    requires e.name in net[Endpoint(Some(host), port)] && net[Endpoint(Some(host), port)][e.name] == e
    ensures var r := Register(s, Some(host), port, Some(name), Some(ip), Some(mac), Assigned(e));
      && r.Requested? && r.server.registry == Some(e)
      && GetHost(r.server, net, e.name) == Returns(Some(e.ip))
      && GetPort(r.server, net, e.name) == Returns(e.port)
  {
  }

  /** The guard of Log and sendHeartbeat as the registry `net` answers it: the monitor is listed with a positive port. */
  predicate MonitorListed(s: Server, net: Network) {
    Listed(s, net, MONITOR) && net[s.discovery][MONITOR].port > 0
  }

  /** The address a channel to the monitor is built for, when the registry `net` lists it. */
  function MonitorAddress(s: Server, net: Network): Endpoint
    requires Listed(s, net, MONITOR)
  {
    Endpoint(Some(net[s.discovery][MONITOR].ip), net[s.discovery][MONITOR].port)
  }

  /** What a log call forwards; the float is only passed through. */
  datatype Payload = Message(text: string) | Value(value: real)

  /** The MessageLog / ValueLog messages: this server's entry plus the payload. */
  datatype LogRecord = LogRecord(entry: RegistryEntry, payload: Payload)

  /**
   * `Skipped`: the guard failed and nothing was attempted.
   * `Delivered`: the monitor at `to` accepted the record.
   * `Swallowed`: the attempt threw and the exception was caught.
   * `Escaped`: the guard's own lookup threw, before the `try`.
   */
  datatype Delivery = Skipped | Delivered(to: Endpoint, record: LogRecord) | Swallowed | Escaped

  /**
   * Log(message) and Log(value). The guard resolves "monitor" through the
   * registry `net`; inside the `try` the channel is built from a second
   * resolution, answered by `again`. `monitors` are the addresses where a
   * monitor service answers.
   */
  function Log(s: Server, net: Network, again: Network, monitors: set<Endpoint>, payload: Payload): (r: Delivery)
    ensures r.Escaped? <==> s.discovery.host.None?
    ensures r.Skipped? <==> s.discovery.host.Some? && !MonitorListed(s, net)
    ensures r.Delivered? <==> (MonitorListed(s, net) && Listed(s, again, MONITOR)
                               && s.registry.Some? && MonitorAddress(s, again) in monitors)
    ensures r.Delivered? ==> r.to == MonitorAddress(s, again) && r.record == LogRecord(s.registry.value, payload)
  {
    var host := GetHost(s, net, MONITOR);
    var port := GetPort(s, net, MONITOR);
    if host.Throws? || port.Throws? then Escaped
    else if host.value.Some? && port.value > 0 then
      var host' := GetHost(s, again, MONITOR);
      var port' := GetPort(s, again, MONITOR);
      if host'.Throws? || port'.Throws? || host'.value.None? then Swallowed   // forAddress(null, ...) throws; caught
      else if s.registry.None? then Swallowed                                 // setEntry(null) throws; caught
      else
        var to := Endpoint(host'.value, port'.value);
        if to in monitors then Delivered(to, LogRecord(s.registry.value, payload))
        else Swallowed                                                        // the write fails; caught
    else Skipped
  }

  /** Logging after a refused registration never delivers and never escapes the call. */
  lemma LogBeforeRegistration(s: Server, net: Network, again: Network, monitors: set<Endpoint>, payload: Payload)
    requires s.registry.None? && s.discovery.host.Some?
    ensures Log(s, net, again, monitors, payload) in {Skipped, Swallowed}
  {
  }

  /** Before `Serve` the discovery host is null, and the guard's lookup throws out of Log. */
  lemma LogBeforeServe(net: Network, again: Network, monitors: set<Endpoint>, payload: Payload)
    ensures Log(UNSTARTED, net, again, monitors, payload) == Escaped
  {
  }

  /** `NotSent`: the guard failed. `Lost`: receiveHeartbeat threw and it was caught. */
  datatype Heartbeat = NotSent | Received(to: Endpoint, entry: RegistryEntry) | Lost

  /**
   * One pass of the heartbeat loop: the heartbeat and the display mode it
   * sets, or `ThreadDied` when an exception left sendHeartbeat (nothing in
   * the thread's `run` catches it).
   */
  datatype Tick = Tick(heartbeat: Heartbeat, display: string) | ThreadDied

  /** The display is on from 07:00 up to, not including, 22:00. */
  function DisplayMode(hour: int): (mode: string)
    ensures mode == "on" <==> 7 <= hour < 22
    ensures mode != "on" ==> mode == "off"
  {
    if 7 <= hour < 22 then "on" else "off"
  }

  /** The command handed to the shell, ending in the mode. */
  function DisplayCommand(hour: int): (cmd: string)
    ensures EndsWith(cmd, DisplayMode(hour))
    ensures StartsWith(cmd, "xset -display :0.0 dpms force ")
  {
    "xset -display :0.0 dpms force " + DisplayMode(hour)
  }

  /**
   * sendHeartbeat at hour-of-day `hour`. The guard resolves "monitor"
   * through `net`; the channel is built, outside any `try`, from a second
   * resolution answered by `again`.
   */
  function SendHeartbeat(s: Server, net: Network, again: Network, monitors: set<Endpoint>, hour: int): (r: Tick)
    ensures r.ThreadDied? <==> (s.discovery.host.None?
                                || (MonitorListed(s, net) && s.registry.Some? && !Listed(s, again, MONITOR)))
    ensures r.Tick? ==> (r.heartbeat != NotSent <==> MonitorListed(s, net) && s.registry.Some?)
    ensures r.Tick? ==> (r.heartbeat.Received? <==> (MonitorListed(s, net) && s.registry.Some?
                                                     && Listed(s, again, MONITOR) && MonitorAddress(s, again) in monitors))
    ensures r.Tick? && r.heartbeat.Received? ==>
      Listed(s, again, MONITOR) && r.heartbeat.to == MonitorAddress(s, again) && Some(r.heartbeat.entry) == s.registry
    ensures r.Tick? ==> r.display == DisplayMode(hour)
  {
    var host := GetHost(s, net, MONITOR);
    var port := GetPort(s, net, MONITOR);
    if host.Throws? || port.Throws? then ThreadDied
    else if host.value.Some? && port.value > 0 && s.registry.Some? then
      var host' := GetHost(s, again, MONITOR);
      var port' := GetPort(s, again, MONITOR);
      if host'.Throws? || port'.Throws? || host'.value.None? then ThreadDied   // forAddress(null, ...) throws
      else
        var to := Endpoint(host'.value, port'.value);
        Tick(if to in monitors then Received(to, s.registry.value) else Lost, DisplayMode(hour))
    else Tick(NotSent, DisplayMode(hour))
  }

  /** With one registry answer for both lookups, a started server's heartbeat never ends the thread. */
  lemma SteadyRegistryKeepsThreadAlive(s: Server, net: Network, monitors: set<Endpoint>, hour: int)
    requires s.discovery.host.Some?
    ensures SendHeartbeat(s, net, net, monitors, hour).Tick?
  {
  }

  /** The world one heartbeat pass sees: the registry at each lookup, the live monitors, the hour. */
  datatype Moment = Moment(net: Network, again: Network, monitors: set<Endpoint>, hour: int)

  function Pass(s: Server, m: Moment): Tick {
    SendHeartbeat(s, m.net, m.again, m.monitors, m.hour)
  }

  /**
   * The heartbeat thread over a run of scheduled passes: the passes happen
   * in order, each whatever became of the heartbeats before it, until one
   * throws and ends the thread.
   */
  method HeartbeatLoop(s: Server, moments: seq<Moment>) returns (ticks: seq<Tick>)
    ensures |ticks| <= |moments|
    ensures forall k :: 0 <= k < |ticks| ==> ticks[k] == Pass(s, moments[k])
    ensures forall k :: 0 <= k < |ticks| - 1 ==> !ticks[k].ThreadDied?
    ensures |ticks| < |moments| ==> 0 < |ticks| && ticks[|ticks| - 1].ThreadDied?
  {
    ticks := [];
    var k := 0;
    while k < |moments|
      invariant 0 <= k <= |moments| && |ticks| == k
      invariant forall i :: 0 <= i < k ==> ticks[i] == Pass(s, moments[i])
      invariant forall i :: 0 <= i < k ==> !ticks[i].ThreadDied?
    {
      var tick := Pass(s, moments[k]);
      ticks := ticks + [tick];
      k := k + 1;
      if tick.ThreadDied? {
        return;
      }
    }
  }
}

=== FILE: lan_address.dfy ===
/**
 * JavaServer's static address helpers: choosing the LAN address among the
 * addresses of the machine's network interfaces, and turning it into the
 * "ip" or "mac" text the server registers with.
 */
module LanAddress {
  import opened Wrappers
  import opened JavaLang
  import opened MacFormat

  type uint8 = x: int | 0 <= x < 256

  /** An interface address: IPv4 by its octets, anything else by its text. */
  datatype InetAddress =
    | V4(a: uint8, b: uint8, c: uint8, d: uint8)
    | V6(text: string, siteLocal: bool)

  /** `getHostAddress()`: dotted decimal for IPv4. */
  function HostAddress(ip: InetAddress): string {
    match ip
    case V4(a, b, c, d) => Decimal(a) + "." + Decimal(b) + "." + Decimal(c) + "." + Decimal(d)
    case V6(text, _) => text
  }

  /** `isSiteLocalAddress()`; for IPv4 the private ranges 10/8, 172.16/12 and 192.168/16. */
  predicate IsSiteLocal(ip: InetAddress) {
    match ip
    case V4(a, b, _, _) => a == 10 || (a == 172 && 16 <= b < 32) || (a == 192 && b == 168)
    case V6(_, siteLocal) => siteLocal
  }

  /** The filter of the enumeration loop: IPv4, text without "127.0", site-local. */
  predicate Qualifies(ip: InetAddress) {
    ip.V4? && !Contains(HostAddress(ip), "127.0") && IsSiteLocal(ip)
  }

  datatype NetworkInterface = NetworkInterface(addresses: seq<InetAddress>)

  /** All addresses in enumeration order: interface by interface, address by address. */
  function Enumerated(nics: seq<NetworkInterface>): seq<InetAddress> {
    if |nics| == 0 then [] else Enumerated(nics[..|nics| - 1]) + nics[|nics| - 1].addresses
  }

  /** The address the loop keeps: it overwrites its choice at every qualifying address. */
  function LastQualifying(addrs: seq<InetAddress>): Option<InetAddress> {
    if |addrs| == 0 then None
    else if Qualifies(addrs[|addrs| - 1]) then Some(addrs[|addrs| - 1])
    else LastQualifying(addrs[..|addrs| - 1])
  }

  /** The choice is empty exactly when no address qualifies. */
  lemma {:induction false} LastQualifyingNone(addrs: seq<InetAddress>)
    ensures LastQualifying(addrs).None? <==> forall i :: 0 <= i < |addrs| ==> !Qualifies(addrs[i])
  {
    if |addrs| > 0 {
      var init := addrs[..|addrs| - 1];
      LastQualifyingNone(init);
      assert forall i :: 0 <= i < |init| ==> init[i] == addrs[i];
    }
  }

  /**
   * A non-empty choice is a qualifying address at some position i after
   * which no address qualifies: the last one wins.
   */
  lemma {:induction false} LastQualifyingIsLast(addrs: seq<InetAddress>) returns (i: nat)
    requires LastQualifying(addrs).Some?
    ensures i < |addrs| && addrs[i] == LastQualifying(addrs).value && Qualifies(addrs[i])
    ensures forall j :: i < j < |addrs| ==> !Qualifies(addrs[j])
  {
    var n := |addrs|;
    var init := addrs[..n - 1];
    if Qualifies(addrs[n - 1]) {
      i := n - 1;
    } else {
      assert LastQualifying(addrs) == LastQualifying(init);
      i := LastQualifyingIsLast(init);
      assert addrs[i] == init[i];
      forall j | i < j < n
        ensures !Qualifies(addrs[j])
      {
        if j < n - 1 {
          assert addrs[j] == init[j];
        }
      }
    }
  }

  /** One more address seen: it becomes the choice exactly when it qualifies. */
  lemma LastQualifyingSnoc(addrs: seq<InetAddress>, ip: InetAddress)
    ensures LastQualifying(addrs + [ip]) == if Qualifies(ip) then Some(ip) else LastQualifying(addrs)
  {
    assert (addrs + [ip])[..|addrs|] == addrs;
  }

  /** The inner loop: the addresses of one interface, in order. */
  method ScanInterface(lanIp: Option<InetAddress>, addrs: seq<InetAddress>, ghost seen: seq<InetAddress>)
    returns (chosen: Option<InetAddress>)
    requires lanIp == LastQualifying(seen)
    ensures chosen == LastQualifying(seen + addrs)
  {
    chosen := lanIp;
    var j := 0;
    assert seen + addrs[..0] == seen;
    while j < |addrs|
      invariant 0 <= j <= |addrs|
      invariant chosen == LastQualifying(seen + addrs[..j])
    {
      var ip := addrs[j];
      if ip.V4? && !Contains(HostAddress(ip), "127.0") {
        if IsSiteLocal(ip) {
          chosen := Some(ip);
        }
      }
      LastQualifyingSnoc(seen + addrs[..j], ip);
      assert seen + addrs[..j + 1] == (seen + addrs[..j]) + [ip];
      j := j + 1;
    }
    assert addrs[..|addrs|] == addrs;
  }

  /** The outer loop of GetAddressLocal: every interface, in enumeration order. */
  method SelectLanAddress(nics: seq<NetworkInterface>) returns (lanIp: Option<InetAddress>)
    ensures lanIp == LastQualifying(Enumerated(nics))
  {
    lanIp := None;
    var i := 0;
    while i < |nics|
      invariant 0 <= i <= |nics|
      invariant lanIp == LastQualifying(Enumerated(nics[..i]))
    {
      lanIp := ScanInterface(lanIp, nics[i].addresses, Enumerated(nics[..i]));
      assert nics[..i + 1][..i] == nics[..i];
      assert Enumerated(nics[..i + 1]) == Enumerated(nics[..i]) + nics[i].addresses;
      i := i + 1;
    }
    assert nics[..|nics|] == nics;
  }

  /** `NetworkInterface.getNetworkInterfaces()`: a SocketException or the interfaces. */
  datatype Enumeration = EnumerationFailed | Interfaces(nics: seq<NetworkInterface>)

  /** `getHardwareAddress()` of the interface bound to an address. */
  datatype Hardware = NoHardwareAddress | HardwareError | HardwareAddress(bytes: seq<int8>)

  /**
   * What the platform reports per address; an address missing from the
   * table has no interface (`getByInetAddress` gives null).
   */
  type HardwareTable = map<InetAddress, Hardware>

  /** The LAN address an enumeration yields, if it yields one at all. */
  function LanOf(e: Enumeration): Option<InetAddress> {
    if e.Interfaces? then LastQualifying(Enumerated(e.nics)) else None
  }

  /**
   * GetAddressLocal(addressType, retry). `now` is the interface enumeration
   * of this call and `later` the one the retry sees 30 seconds on.
   * `None` is Java's null.
   */
  function GetAddressLocal(addressType: string, retry: bool, now: Enumeration, later: Enumeration,
                           table: HardwareTable): (r: Option<string>)
    ensures addressType == "ip" && r.Some? && |r.value| > 0 ==> r.value[0] != '/'
    ensures addressType != "ip" && addressType != "mac" ==> r == Some("") || r == None
    ensures r.None? ==> now.Interfaces? && (LanOf(now).None? || (addressType == "mac" && LanOf(now).value in table && table[LanOf(now).value] == HardwareError))
    ensures now.EnumerationFailed? ==> r == Some("")
    ensures (addressType == "mac" && LanOf(now).Some?
             && LanOf(now).value in table && table[LanOf(now).value].HardwareError?)
        ==> r == None
    ensures (addressType == "mac" && LanOf(now).Some?
             && (LanOf(now).value !in table || table[LanOf(now).value].NoHardwareAddress?))
        ==> r == Some("")
    decreases retry
  {
    match now
    case EnumerationFailed =>
      // the SocketException is caught and the initial "" returned
      Some("")
    case Interfaces(nics) =>
      var lanIp := LastQualifying(Enumerated(nics));
      if lanIp.None? then
        if retry then GetAddressLocal(addressType, false, later, later, table) else None
      else if addressType == "ip" then
        // InetAddress.toString() of an address built from its literal is "/" + host address
        Some(StripLeadingSlashes("/" + HostAddress(lanIp.value)))
      else if addressType == "mac" then
        if lanIp.value !in table then Some("")
        else match table[lanIp.value]
          case NoHardwareAddress => Some("")
          case HardwareError => None
          case HardwareAddress(bytes) => Some(MacText(bytes))
      else
        // the "Specify \"ip\" or \"mac\"" exception is caught
        Some("")
  }

  /** The text of an IPv4 address begins with a digit, so no slash is stripped from it. */
  lemma V4TextKeepsAfterSlash(ip: InetAddress)
    requires ip.V4?
    ensures StripLeadingSlashes("/" + HostAddress(ip)) == HostAddress(ip)
  {
    var h := HostAddress(ip);
    assert h[0] == Decimal(ip.a)[0];
    assert ("/" + h)[1..] == h;
  }

  /** The "ip" text is the chosen LAN address's dotted form, with no leading '/'. */
  lemma IpIsHostAddress(retry: bool, now: Enumeration, later: Enumeration, table: HardwareTable)
    requires LanOf(now).Some?
    ensures GetAddressLocal("ip", retry, now, later, table) == Some(HostAddress(LanOf(now).value))
  {
    var _ := LastQualifyingIsLast(Enumerated(now.nics));
    V4TextKeepsAfterSlash(LanOf(now).value);
  }

  /** The "mac" text is the formatted hardware address of the chosen interface. */
  lemma MacIsFormattedHardware(retry: bool, now: Enumeration, later: Enumeration, table: HardwareTable)
    requires LanOf(now).Some? && LanOf(now).value in table && table[LanOf(now).value].HardwareAddress?
    ensures GetAddressLocal("mac", retry, now, later, table) == Some(MacText(table[LanOf(now).value].bytes))
  {
  }

  /**
   * With no LAN address the call gives null unless it may retry; the retry
   * scans once more and cannot retry again, so the first call's `later`
   * snapshot is the last one any call reads.
   */
  lemma RetriesAtMostOnce(addressType: string, now: Enumeration, later: Enumeration, other: Enumeration,
                          table: HardwareTable)
    requires now.Interfaces? && LanOf(now).None?
    ensures GetAddressLocal(addressType, false, now, later, table) == None
    ensures GetAddressLocal(addressType, true, now, later, table)
         == GetAddressLocal(addressType, false, later, other, table)
  {
  }

  /**
   * An address type other than "ip" or "mac" gives the empty text whenever a
   * LAN address was found; null only when every scan came up empty.
   */
  lemma {:induction false} UnknownTypeGivesEmpty(addressType: string, retry: bool, now: Enumeration,
                                                 later: Enumeration, table: HardwareTable)
    requires addressType != "ip" && addressType != "mac"
    ensures var r := GetAddressLocal(addressType, retry, now, later, table);
      && (r == None <==> now.Interfaces? && LanOf(now).None? && (!retry || (later.Interfaces? && LanOf(later).None?)))
      && (r != None ==> r == Some(""))
  {
    if now.Interfaces? && LanOf(now).None? && retry {
      UnknownTypeGivesEmpty(addressType, false, later, later, table);
    }
  }

  /**
   * The "127.0" test is on the text, not the network: the site-local
   * 10.127.0.1 is never chosen.
   */
  lemma SubstringTestRejectsSiteLocal()
    ensures IsSiteLocal(V4(10, 127, 0, 1)) && !Qualifies(V4(10, 127, 0, 1))
  {
    var h := HostAddress(V4(10, 127, 0, 1));
    assert h == "10.127.0.1";
    assert h[3..8] == "127.0";
    ContainsAt(h, "127.0", 3);
  }
}

=== FILE: mac_format.dfy ===
/**
 * The hardware-address text JavaServer registers as its identifier: every
 * byte as `%02X` (two upper-case hex digits of the byte's two's-complement
 * bits) and a '-' after every byte but the last.
 */
module MacFormat {
  import opened Wrappers
  import opened JavaLang

  /** The characters `%X` prints: decimal digits and upper-case A to F. */
  predicate IsHexDigit(c: char) {
    '0' <= c <= '9' || 'A' <= c <= 'F'
  }

  /** The upper-case hex digit for a value below 16. */
  function HexDigit(d: nat): (c: char)
    requires d < 16
    ensures IsHexDigit(c)
  {
    if d < 10 then (('0' as int) + d) as char else (('A' as int) + d - 10) as char
  }

  /** The value of an upper-case hex digit. */
  function HexValue(c: char): (r: Option<nat>)
    ensures r.Some? <==> IsHexDigit(c)
    ensures r.Some? ==> r.value < 16 && HexDigit(r.value) == c
  {
    if '0' <= c <= '9' then Some((c as int) - ('0' as int))
    else if 'A' <= c <= 'F' then Some((c as int) - ('A' as int) + 10)
    else None
  }

  /** The value `%X` prints for a Java byte: negative bytes print as b + 256. */
  function Unsigned(b: int8): (u: nat)
    ensures u < 256 && u % 256 == b % 256
  {
    if b < 0 then b + 256 else b
  }

  /** `String.format("%02X", b)`: high digit, then low digit. */
  function Hex2(b: int8): (s: string)
    ensures |s| == 2 && IsHexDigit(s[0]) && IsHexDigit(s[1])
  {
    var u := Unsigned(b);
    [HexDigit(u / 16), HexDigit(u % 16)]
  }

  /** Reads two hex digits back as a Java byte. */
  function ParseHex2(hi: char, lo: char): Option<int8> {
    match (HexValue(hi), HexValue(lo))
    case (Some(h), Some(l)) =>
      var u: int := 16 * h + l;
      Some(if u >= 128 then u - 256 else u)
    case _ => None
  }

  lemma Hex2RoundTrip(b: int8)
    ensures ParseHex2(Hex2(b)[0], Hex2(b)[1]) == Some(b)
  {
    var u := Unsigned(b);
    var h, l := u / 16, u % 16;
    assert u == 16 * h + l;
    assert HexValue(HexDigit(h)) == Some(h);
    assert HexValue(HexDigit(l)) == Some(l);
    assert (u >= 128) == (b < 0);
  }

  /** The text the formatting loop builds for the bytes `mac`. */
  function MacText(mac: seq<int8>): (r: string)
    ensures |r| == if |mac| == 0 then 0 else 3 * |mac| - 1
  {
    if |mac| == 0 then ""
    else if |mac| == 1 then Hex2(mac[0])
    else MacText(mac[..|mac| - 1]) + "-" + Hex2(mac[|mac| - 1])
  }

  /** The two characters that byte k of a MAC text occupies. */
  function Field(r: string, k: nat): string
    requires 3 * k + 2 <= |r|
  {
    r[3 * k..3 * k + 2]
  }

  /** Whether a '-' follows byte k of a MAC text. */
  predicate DashAfter(r: string, k: nat) {
    3 * k + 2 < |r| && r[3 * k + 2] == '-'
  }

  /** What a MAC text keeps of the text of all but its last byte. */
  lemma MacTextExtends(mac: seq<int8>)
    requires |mac| > 1
    ensures var t := MacText(mac[..|mac| - 1]);
      && MacText(mac)[..|t|] == t
      && MacText(mac)[|t|] == '-'
      && MacText(mac)[|t| + 1..] == Hex2(mac[|mac| - 1])
  {
  }

  /**
   * Layout of the text: byte k sits at positions 3k and 3k+1 as two
   * upper-case hex digits, and a '-' separates it from byte k+1; there is
   * no separator after the last byte (the length is 3n - 1).
   */
  lemma {:induction false} MacTextLayout(mac: seq<int8>)
    ensures var r := MacText(mac);
      && (forall k :: 0 <= k < |mac| ==> 3 * k + 2 <= |r| && Field(r, k) == Hex2(mac[k]))
      && (forall k :: 0 <= k < |mac| - 1 ==> DashAfter(r, k))
  {
    if |mac| > 1 {
      var n := |mac|;
      var init := mac[..n - 1];
      var t := MacText(init);
      var r := MacText(mac);
      MacTextLayout(init);
      MacTextExtends(mac);
      assert |t| == 3 * n - 4;
      forall k | 0 <= k < n
        ensures 3 * k + 2 <= |r| && Field(r, k) == Hex2(mac[k])
      {
        if k < n - 1 {
          assert 3 * k + 2 <= |t|;
          assert Field(r, k) == r[..|t|][3 * k..3 * k + 2];
          assert Field(t, k) == Hex2(init[k]);
        } else {
          assert 3 * k == |t| + 1;
        }
      }
      forall k | 0 <= k < n - 1
        ensures DashAfter(r, k)
      {
        if k < n - 2 {
          assert DashAfter(t, k);
          assert r[3 * k + 2] == r[..|t|][3 * k + 2];
        } else {
          assert 3 * k + 2 == |t|;
        }
      }
    }
  }

  /** Every character of a MAC text is an upper-case hex digit or '-'. */
  lemma {:induction false} MacTextAlphabet(mac: seq<int8>)
    ensures forall i :: 0 <= i < |MacText(mac)| ==> IsHexDigit(MacText(mac)[i]) || MacText(mac)[i] == '-'
  {
    if |mac| > 1 {
      MacTextAlphabet(mac[..|mac| - 1]);
    }
  }

  /** Reads a MAC text back into its bytes; `None` when it is not one. */
  function ParseMac(s: string): Option<seq<int8>>
    decreases |s|
  {
    if |s| == 0 then Some([])
    else if |s| < 2 then None
    else
      var last := ParseHex2(s[|s| - 2], s[|s| - 1]);
      if last.None? then None
      else if |s| == 2 then Some([last.value])
      else if |s| < 5 || s[|s| - 3] != '-' then None
      else match ParseMac(s[..|s| - 3])
        case None => None
        case Some(init) => Some(init + [last.value])
  }

  /** Appending "-" and one more byte to a MAC text appends that byte to its parse. */
  lemma ParseMacAppend(t: string, init: seq<int8>, b: int8)
    requires 2 <= |t| && ParseMac(t) == Some(init)
    ensures ParseMac(t + "-" + Hex2(b)) == Some(init + [b])
  {
    var s := t + "-" + Hex2(b);
    Hex2RoundTrip(b);
    assert s[|s| - 2] == Hex2(b)[0] && s[|s| - 1] == Hex2(b)[1];
    assert s[|s| - 3] == '-';
    assert s[..|s| - 3] == t;
  }

  /** The formatted identifier determines the hardware address: parsing it gives the bytes back. */
  lemma {:induction false} MacRoundTrip(mac: seq<int8>)
    ensures ParseMac(MacText(mac)) == Some(mac)
  {
    if |mac| == 1 {
      Hex2RoundTrip(mac[0]);
      assert [mac[0]] == mac;
    } else if |mac| > 1 {
      var init := mac[..|mac| - 1];
      MacRoundTrip(init);
      ParseMacAppend(MacText(init), init, mac[|mac| - 1]);
      assert init + [mac[|mac| - 1]] == mac;
    }
  }

  /** The StringBuilder loop of GetMacAddress, one byte per iteration. */
  method FormatMac(mac: seq<int8>) returns (address: string)
    ensures address == MacText(mac)
  {
    var sb := "";
    var i := 0;
    while i < |mac|
      invariant 0 <= i <= |mac|
      invariant i == 0 ==> sb == ""
      invariant 0 < i < |mac| ==> sb == MacText(mac[..i]) + "-"
      invariant i == |mac| ==> sb == MacText(mac)
    {
      var sep := if i < |mac| - 1 then "-" else "";
      sb := sb + Hex2(mac[i]) + sep;
      if i > 0 {
        assert mac[..i + 1][..i] == mac[..i];
        assert MacText(mac[..i + 1]) == MacText(mac[..i]) + "-" + Hex2(mac[i]);
      } else {
        assert MacText(mac[..1]) == Hex2(mac[0]);
      }
      if i + 1 == |mac| {
        assert mac[..|mac|] == mac;
      }
      i := i + 1;
    }
    address := sb;
  }
}

=== FILE: registry.dfy ===
/**
 * The discovery registry as the client sees it over gRPC: a directory of
 * RegistryEntry records per reachable registry address. A missing address
 * means the call fails with a transport status; a missing name means the
 * registry answers with an error status. Both reach the client as a
 * StatusRuntimeException. A null host never gets as far as a call.
 */
module Registry {
  import opened Wrappers
  import opened JavaLang

  /** The discovery.RegistryEntry message. */
  datatype RegistryEntry = RegistryEntry(name: string, ip: string, port: int32, identifier: string)

  /** The (host, port) pair a gRPC channel is built for; the host may be null. */
  datatype Endpoint = Endpoint(host: Option<string>, port: int32)

  /** Registered services by name, as one registry instance holds them. */
  type Directory = map<string, RegistryEntry>

  /** The registries reachable right now, by the address that reaches them. */
  type Network = map<Endpoint, Directory>

  /**
   * What one `discover` call comes back with, the building of its channel
   * included. `NoChannel`: `ManagedChannelBuilder.forAddress` was given a
   * null host, has no authority text to build the channel for, and throws a
   * NullPointerException before any call is made; unlike the other two
   * failures this is not a StatusRuntimeException. `Unreachable` and
   * `NotFound` are error statuses of the call itself.
   */
  datatype Reply = Found(entry: RegistryEntry) | NotFound | Unreachable | NoChannel

  /** One `discover(name)` RPC against the registry at `at`. */
  function Lookup(net: Network, at: Endpoint, name: string): (r: Reply)
    ensures r.NoChannel? <==> at.host.None?
    ensures r.Found? <==> at.host.Some? && at in net && name in net[at]
    ensures r.Found? ==> r.entry == net[at][name]
    ensures r.Unreachable? <==> at.host.Some? && at !in net
  {
    if at.host.None? then NoChannel
    else if at !in net then Unreachable
    else if name !in net[at] then NotFound
    else Found(net[at][name])
  }
}

=== FILE: wrappers.dfy ===
/** Java's nullable references, made explicit. */
module Wrappers {

  /** `None` stands for Java's `null`; `Some(v)` for a non-null reference to `v`. */
  datatype Option<+T> = None | Some(value: T)
}
